=== FILE: README.md ===
# Discord-to-Archive.org upload command, modelled in Dafny

This project models the decision logic of the `/upload` slash command of the
Archive.org uploading Discord bot (`bot.py`). An invocation carries up to ten
attachment slots (`file1` required, `file2` … `file10` optional). The handler:

- gathers the filled slots in order;
- refuses the whole batch at the first attachment over 100 MiB;
- saves each attachment as `./<filename>` in the working directory;
- derives an item identifier;
- builds the archive metadata;
- hands identifier, paths and metadata to the archive client;
- reports the item URL or the error text;
- removes the saved copies.

The model is one pure function, `UploadCommand.Handle`. Its inputs are the
slots, the user name, the current moment, the archive call's result (a flag
and the exception text) and the working directory (a set of paths). It returns
a `Response`, which holds:

- the `Outcome`: no attachments, attachment too large, uploaded, or upload failed;
- the follow-up messages sent to the user;
- the upload request, if one was made;
- the working directory afterwards.

Modules:

- `Text`: ASCII lower-casing, `str.replace`, `"\n".join` and its inverse
  `split`, POSIX `os.path.basename`, and substring containment.
- `Digits` and `Clock`: the `%Y%m%d%H%M%S` timestamp and the count in the
  progress message, with parsers that read them back.
- `ItemId`: the single-file base (`[^a-z0-9._-]` replaced by `_` after
  lower-casing), the multi-file base (`discord-upload-<user>`), and
  `generate_unique_id`.
- `Staging`: slot gathering, the size gate and staging loop, and the cleanup loop.
- `Metadata`: the four-key metadata mapping.
- `UploadCommand`: messages, outcome, `Handle`, and end-to-end lemmas.

The abort path is modelled as the code behaves. When an attachment after the
first is too large, the copies saved before it are not removed
(`UploadCommand.HandleLeavesEarlierCopies`). So "every staged file is removed
before the handler returns" holds only on the upload path. The model follows
the code here rather than the intent.

For two attachments with the same filename, the set holds one path for both.
This agrees with the code, where the second save overwrites the first and
one file remains; which bytes it holds is not modelled. The cleanup removes
that path. A file that already existed under a staged name is removed by the
cleanup, as in the code.

## Model

| member | source | states |
|---|---|---|
| Text.Lower | bot.py:98 | lower-casing keeps the length and maps each character through the ASCII lower-case map |
| Text.Replace | bot.py:100 | every occurrence of the given character, and only those, is replaced; length is kept |
| Text.SplitJoin | bot.py:105 | splitting `"\n".join(parts)` on newlines gives back exactly the parts, in order, when no part contains a newline |
| Text.Join | bot.py:105 | every joined part occurs in the joined text |
| Text.Basename | bot.py:105 | the POSIX basename is a slash-free suffix of the path, preceded by a '/' whenever it is shorter than the path |
| Digits.ValuePadded | bot.py:28 | a zero-padded fixed-width field reads back as the number it renders |
| Digits.Decimal | bot.py:92 | the count in the progress message is a non-empty digit string with no leading zero unless the count is zero |
| Digits.ValueDecimal | bot.py:92 | the decimal rendering of the count reads back as the count |
| Clock.Timestamp | bot.py:28 | `%Y%m%d%H%M%S` of a valid moment is exactly 14 digits |
| Clock.ParseTimestampInverts | bot.py:28 | the 14-digit timestamp determines year, month, day, hour, minute and second |
| Clock.TimestampInjective | bot.py:28 | two moments get the same timestamp exactly when they are equal |
| ItemId.ReplaceDisallowed | bot.py:98 | the regex substitution keeps allowed characters, turns every other one into '_', and keeps the length |
| ItemId.SingleFileBase | bot.py:98 | the single-file base has the filename's length and only `[a-z0-9._-]` characters; allowed characters are kept, capitals are lower-cased, and everything else becomes '_' |
| ItemId.SingleFileBaseIdempotent | bot.py:98 | sanitising a sanitised base changes nothing |
| ItemId.SingleFileBaseFixedPoints | bot.py:98 | a filename is its own base exactly when all its characters are already allowed |
| ItemId.SingleFileBaseExample | bot.py:98 | "My Video.MP4" has base "my_video.mp4" |
| ItemId.MultiFileBase | bot.py:100 | the multi-file base is "discord-upload-" followed by the user name with spaces as '_' and capitals lowered; it holds no space and no capital |
| ItemId.MultiFileBaseOf | bot.py:100 | any name that matches the user name character by character, with spaces as '_' and capitals lowered, follows "discord-upload-" to make the whole multi-file base |
| ItemId.MultiFileBaseExample | bot.py:100 | user "Jane Doe" gives base "discord-upload-jane_doe" |
| ItemId.GenerateUniqueId | bot.py:26-29 | the identifier is the base, then '-', then 14 digits |
| ItemId.SplitUniqueIdInverts | bot.py:26-29 | the identifier can be split back into exactly the base and the moment it was made from |
| ItemId.UniqueIdCollision | bot.py:102 | two identifiers coincide exactly when base and second coincide, which is the only way identifiers collide |
| Staging.Gather | bot.py:72-73 | gathering yields at most as many attachments as slots, and exactly the attachments of filled slots |
| Staging.GatherAppend | bot.py:72-73 | gathering distributes over concatenation of slot lists, so slot order is kept |
| Staging.GatherCount | bot.py:73 | the number of gathered attachments is the number of slots minus the number of empty slots |
| Staging.GatherEmpty | bot.py:73-78 | nothing is gathered exactly when every slot is empty |
| Staging.GatherWithinLimit | bot.py:81-85 | every gathered attachment fits the limit exactly when every filled slot's attachment does |
| Staging.GatherFirstRequired | bot.py:52 | with `file1` present, between one and all slots are gathered and `file1` comes first |
| Staging.Stage | bot.py:80-89 | the staging loop completes exactly when every attachment is within 100 MiB, and it never removes a path |
| Staging.StagePath | bot.py:87 | the stage path is `./` followed by the filename, which can be read back from the path |
| Staging.StagePathInjective | bot.py:87 | two attachments share a stage path exactly when their filenames are equal |
| Staging.StagePaths | bot.py:81-89 | the upload's file list has one path per attachment, in order, each the attachment's stage path |
| Staging.WithinLimit | bot.py:83 | an attachment passes the size gate exactly when its size is at most 104857600 bytes, and is refused exactly from 104857601 bytes on |
| Staging.StageAcceptsAll | bot.py:82-89 | when all attachments fit, the staged paths are `./` + filename for each attachment in order, and the directory gains exactly those paths |
| Staging.StageAbortsAtFirstOversized | bot.py:82-85 | the first attachment over the limit stops the loop and is the one reported; the paths of the attachments before it are left in the directory |
| Staging.FirstOversizedExists | bot.py:82-83 | if some attachment is over the limit, a first such attachment exists |
| Staging.SizeGateBoundary | bot.py:83 | an attachment of exactly 104857600 bytes is accepted and one byte more is refused |
| Staging.Cleanup | bot.py:144-148 | cleanup removes exactly the staged paths and leaves every other path as it was |
| Metadata.Basenames | bot.py:105 | one basename per staged path, in order, each the path's basename |
| Metadata.SingleDescription | bot.py:115 | the one-file description is "Uploaded via Discord bot by ", the user name, ": ", then the filename, each part cut back out of it at its position |
| Metadata.MultiTitle | bot.py:120 | the several-file title is "Files uploaded by " followed by exactly the user name |
| Metadata.MultiDescription | bot.py:105-124 | a several-file description opens with the line naming the user, and the basename of every staged path occurs in it |
| Metadata.FieldNamesDistinct | bot.py:106-109 | two metadata fields share a key name exactly when they are the same field |
| Metadata.FieldSetNames | bot.py:106-125 | taken by name, the four fields are exactly the keys "scanner", "collection", "title" and "description" |
| Metadata.MetadataKeyNames | bot.py:106-125 | by name, the metadata's keys are exactly "scanner", "collection", "title" and "description" |
| Metadata.BuildMetadata | bot.py:104-125 | the metadata has exactly the keys scanner, collection, title and description; scanner and collection are fixed; title and description follow the one-file or several-file wording |
| Metadata.SingleDescriptionNames | bot.py:113-116 | a one-file description contains both the user name and the filename |
| Metadata.BasenameOfStagePath | bot.py:87 | the basename of `./` + filename is the filename, for a filename without '/' |
| Metadata.BasenamesOfStagePaths | bot.py:105 | the basenames of the staged paths are the attachments' filenames, in order |
| Metadata.MultiDescriptionLines | bot.py:119-124 | split into lines, a several-file description is the user line, an empty line, "Uploaded files:", then every filename in upload order |
| UploadCommand.DetailsUrl | bot.py:136-140 | the item URL is `https://archive.org/details/` followed by exactly the identifier |
| UploadCommand.TooLargeMessage | bot.py:84 | the abort message contains the filename of the attachment that is too large |
| UploadCommand.ProgressMessage | bot.py:92 | the progress message is "Uploading ", then a non-empty run of digits with no leading zero unless the count is zero, then " file(s) to Archive.org..."; the digits read back as the file count |
| UploadCommand.BaseItemId | bot.py:97-100 | for one file the base has the filename's length, and each character is the filename's character lower-cased when that is in `[a-z0-9._-]` and '_' otherwise; for several files it is "discord-upload-" followed, character by character, by the user name with spaces as '_' and capitals lowered, so it holds no space and no capital |
| UploadCommand.SuccessMessage | bot.py:134-141 | the success message starts with the singular lead for one file and the plural lead otherwise, and the details URL can be cut back out of it before the closing ')' |
| UploadCommand.FailureMessage | bot.py:142-143 | the failure message is the fixed prefix followed by exactly the error text |
| UploadCommand.SuccessMessageShape | bot.py:134-141 | the success message contains the item's details URL; it opens with the singular wording for one file and the plural wording otherwise |
| UploadCommand.FailureMessageShape | bot.py:142-143 | the failure message contains the error text |
| UploadCommand.Deliver | bot.py:91-148 | after staging, one upload of exactly the staged paths is requested; the outcome follows the archive's result and carries its error text on failure; two messages are sent, the first announcing the count; the staged paths are removed |
| UploadCommand.Handle | bot.py:68-148 | the outcome is "no attachments" exactly when all slots are empty; an upload is requested exactly when some slot is filled and all fit the limit; after an upload the outcome is "uploaded" exactly when the archive call succeeded, and a failure carries the error text; after an upload no requested path remains and no other path changed; on the abort paths nothing is removed |
| UploadCommand.HandleWithoutAttachments | bot.py:75-78 | with every slot empty, one "No files attached" message is sent, nothing is uploaded, and the directory is unchanged |
| UploadCommand.HandleRejectsOversized | bot.py:81-85 | the first oversized attachment is the outcome and its filename occurs in the only message; no upload happens, and the earlier attachments stay staged |
| UploadCommand.HandleLeavesEarlierCopies | bot.py:81-89 | when the oversized attachment is not the first, the first attachment's copy is still on disk after the command ends |
| UploadCommand.HandleUploadsAll | bot.py:72-129 | with file1 present and all sizes within the limit: 1 to 10 attachments, `./` + filename paths in slot order, one request with identifier and metadata, progress message with the count, and exactly those paths removed afterwards |
| UploadCommand.HandleItemId | bot.py:94-102 | the request's identifier splits into the base and the moment; the base is the sanitised filename for one file and the user base otherwise |
| UploadCommand.HandleSuccessReportsUrl | bot.py:131-141 | on success the outcome carries `https://archive.org/details/` + identifier, and the last message contains it with the singular or plural wording |
| UploadCommand.HandleFailureReportsReason | bot.py:142-148 | on failure the last message contains the error text and the staged paths are still removed |

## Left out

- Discord client setup, intents, activity, `on_ready`, command registration, `bot.run` and the token (bot.py:11-24, 31-61, 150). These are framework plumbing.
- The deferred acknowledgement (bot.py:69) is not modelled. Follow-up messages are modelled as strings in `Response.messages`; sending them is I/O, and every send is taken to succeed. In the source, a success message that fails to send (bot.py:135-141) is caught by the `except` and reported as "An error occurred during upload: …" although the upload went through, while the model says `Uploaded`. A progress message that fails to send (bot.py:92) raises before the `try`, so the staged copies are never removed; the model always cleans up after staging completes.
- `attachment.save` (bot.py:88) is modelled only as adding the path to the directory set. The bytes written are not modelled, and neither is a save that raises. In the source such an exception escapes the handler uncaught.
- `internetarchive.upload` run through `asyncio.to_thread` (bot.py:127-132) is an opaque foreign call. It is replaced by the parameters `uploadSucceeds` and `errText`, where `errText` stands for `str(e)` of the exception.
- `datetime.now()` (bot.py:28) is a clock, so the moment is a parameter. Its year is limited to 1000-9999 so that `%Y` has four digits. The day is not checked against the month's length, because that does not change the rendered string.
- Text.Lower: only ASCII capitals are lowered, and other characters are left unchanged. Python's `str.lower()` also lowers non-ASCII letters and can change the length (for example U+0130). For non-ASCII input, the model's base can therefore differ from the source's.
- Metadata.MultiDescriptionLines: requires a user name without a newline and filenames without '/' or a newline. Chat-platform names and attachment filenames do not contain these.
- Text.Basename: models the POSIX `os.path.basename`, which splits at '/' only. On Windows, `os.path` is `ntpath`, which also splits at `\`. There a filename holding `\` would give a different line in the several-file description (bot.py:105). Windows' drive rule does not apply, because every stage path starts with `./`. Paths are taken to be POSIX paths.
- Metadata.BasenameOfStagePath: requires a filename without '/'. A filename with '/' would be saved into a subdirectory, which is not modelled.
- The working directory is a set of path strings, compared as spelled by the handler (`./` + filename). Two spellings of one file (`./a` and `a`, or `./A.txt` and `./a.txt` on a case-insensitive file system) are two entries here. For such aliases, Handle's "no other path changed" does not hold on disk: the source overwrites and then deletes the aliased file.
- Concurrent invocations sharing the working directory (races on equal filenames) are not modelled.

=== FILE: clock.dfy ===
/** The wall-clock reading the upload command stamps item identifiers with,
    and its `%Y%m%d%H%M%S` rendering. The clock itself is not modelled: the
    moment is a parameter. */
module Clock {
  import opened Digits

  /** A calendar moment to the second, as `datetime.now()` reports it. */
  datatype DateTime = DateTime(year: nat, month: nat, day: nat, hour: nat, minute: nat, second: nat)
  {
    /** Field ranges of a moment whose year has four digits. */
    predicate Valid() {
      && 1000 <= year <= 9999
      && 1 <= month <= 12
      && 1 <= day <= 31
      && hour <= 23
      && minute <= 59
      && second <= 59
    }
  }

  const TimestampLength: nat := 14

  /** `strftime("%Y%m%d%H%M%S")`: year, month, day, hour, minute and second,
      each zero-padded, with nothing between them. */
  function Timestamp(t: DateTime): (s: string)
    requires t.Valid()
    ensures |s| == TimestampLength
    ensures AllDigits(s)
  {
    assert Pow10(2) == 100 && Pow10(4) == 10000;
    Padded(t.year, 4) + Padded(t.month, 2) + Padded(t.day, 2)
      + Padded(t.hour, 2) + Padded(t.minute, 2) + Padded(t.second, 2)
  }

  /** Reads the six fields back out of a 14-digit timestamp. */
  function ParseTimestamp(s: string): DateTime
    requires |s| == TimestampLength && AllDigits(s)
  {
    DateTime(Value(s[0..4]), Value(s[4..6]), Value(s[6..8]),
             Value(s[8..10]), Value(s[10..12]), Value(s[12..14]))
  }

  /** The timestamp records the moment completely. */
  lemma ParseTimestampInverts(t: DateTime)
    requires t.Valid()
    ensures ParseTimestamp(Timestamp(t)) == t
  {
    assert Pow10(2) == 100 && Pow10(4) == 10000;
    var s := Timestamp(t);
    assert s[0..4] == Padded(t.year, 4);
    assert s[4..6] == Padded(t.month, 2);
    assert s[6..8] == Padded(t.day, 2);
    assert s[8..10] == Padded(t.hour, 2);
    assert s[10..12] == Padded(t.minute, 2);
    assert s[12..14] == Padded(t.second, 2);
    ValuePadded(t.year, 4);
    ValuePadded(t.month, 2);
    ValuePadded(t.day, 2);
    ValuePadded(t.hour, 2);
    ValuePadded(t.minute, 2);
    ValuePadded(t.second, 2);
  }

  /** Two moments render alike exactly when they are the same moment. */
  lemma TimestampInjective(t1: DateTime, t2: DateTime)
    requires t1.Valid() && t2.Valid()
    ensures Timestamp(t1) == Timestamp(t2) <==> t1 == t2
  {
    ParseTimestampInverts(t1);
    ParseTimestampInverts(t2);
  }
}

=== FILE: digits.dfy ===
/** Decimal numerals: fixed-width zero-padded numbers (the `%04d`/`%02d`
    fields of a `strftime` timestamp), the shortest decimal form of a
    natural number (`str(n)` in a message), and the value of a digit string,
    which reads both back. */
module Digits {

  predicate IsDigit(c: char) {
    '0' <= c <= '9'
  }

  predicate AllDigits(s: string) {
    forall i :: 0 <= i < |s| ==> IsDigit(s[i])
  }

  function DigitChar(d: nat): (c: char)
    requires d < 10
    ensures IsDigit(c)
  {
    ('0' as int + d) as char
  }

  function DigitValue(c: char): (d: nat)
    requires IsDigit(c)
    ensures d < 10
    ensures DigitChar(d) == c
  {
    c as int - '0' as int
  }

  function Pow10(n: nat): (p: nat)
    ensures p >= 1
  {
    if n == 0 then 1 else 10 * Pow10(n - 1)
  }

  /** The value of a string of decimal digits, most significant first. */
  function Value(s: string): (n: nat)
    requires AllDigits(s)
    ensures n < Pow10(|s|)
  {
    if s == [] then 0 else 10 * Value(s[..|s| - 1]) + DigitValue(s[|s| - 1])
  }

  /** `n` in exactly `width` digits, padded on the left with zeros. */
  function Padded(n: nat, width: nat): (s: string)
    requires n < Pow10(width)
    ensures |s| == width
    ensures AllDigits(s)
  {
    if width == 0 then []
    else
      assert n / 10 < Pow10(width - 1);
      Padded(n / 10, width - 1) + [DigitChar(n % 10)]
  }

  /** Reading a padded numeral gives the number back. */
  lemma {:induction false} ValuePadded(n: nat, width: nat)
    requires n < Pow10(width)
    ensures Value(Padded(n, width)) == n
  {
    if width > 0 {
      var s := Padded(n, width);
      assert n / 10 < Pow10(width - 1);
      assert s[..|s| - 1] == Padded(n / 10, width - 1);
      ValuePadded(n / 10, width - 1);
    }
  }

  /** The usual decimal form of `n`: no leading zero unless `n` is zero. */
  function Decimal(n: nat): (s: string)
    ensures 1 <= |s| && AllDigits(s)
    ensures s[0] == '0' <==> n == 0
  {
    if n < 10 then [DigitChar(n)] else Decimal(n / 10) + [DigitChar(n % 10)]
  }

  /** Reading a decimal numeral gives the number back. */
  lemma {:induction false} ValueDecimal(n: nat)
    ensures Value(Decimal(n)) == n
  {
    var s := Decimal(n);
    if n >= 10 {
      assert s[..|s| - 1] == Decimal(n / 10);
      ValueDecimal(n / 10);
    }
  }
}

=== FILE: item_id.dfy ===
/** Derivation of the archive item identifier: a base taken from the single
    file's name or from the uploader's name, followed by a dash and the
    upload's second-resolution timestamp. */
module ItemId {
  import opened Text
  import opened Digits
  import opened Clock

  /** The characters an identifier base may keep: `[a-z0-9._-]`. */
  predicate Allowed(c: char) {
    IsLower(c) || IsDigit(c) || c == '.' || c == '_' || c == '-'
  }

  predicate AllAllowed(s: string) {
    forall i :: 0 <= i < |s| ==> Allowed(s[i])
  }

  /** Every character outside the allowed class becomes '_'
      (`re.sub(r'[^a-z0-9._-]', '_', s)`). */
  function ReplaceDisallowed(s: string): (r: string)
    ensures |r| == |s|
    ensures AllAllowed(r)
    ensures forall i :: 0 <= i < |s| && Allowed(s[i]) ==> r[i] == s[i]
    ensures forall i :: 0 <= i < |s| && !Allowed(s[i]) ==> r[i] == '_'
  {
    if s == [] then [] else [if Allowed(s[0]) then s[0] else '_'] + ReplaceDisallowed(s[1..])
  }

  /** The base of a one-file upload: the filename lower-cased, then every
      character outside `[a-z0-9._-]` replaced by '_'. */
  function SingleFileBase(filename: string): (base: string)
    ensures |base| == |filename|
    ensures AllAllowed(base)
    ensures forall i :: 0 <= i < |filename| && Allowed(filename[i]) ==> base[i] == filename[i]
    ensures forall i :: 0 <= i < |filename| && IsUpper(filename[i]) ==> base[i] == LowerChar(filename[i])
    ensures forall i :: 0 <= i < |filename| && !IsUpper(filename[i]) && !Allowed(filename[i]) ==> base[i] == '_'
  {
    ReplaceDisallowed(Lower(filename))
  }

  /** Sanitising an already sanitised base changes nothing. */
  lemma SingleFileBaseIdempotent(filename: string)
    ensures SingleFileBase(SingleFileBase(filename)) == SingleFileBase(filename)
  {
    var b := SingleFileBase(filename);
    var bb := SingleFileBase(b);
    assert forall i :: 0 <= i < |b| ==> bb[i] == b[i];
  }

  /** A filename is its own base exactly when it uses only allowed characters. */
  lemma SingleFileBaseFixedPoints(filename: string)
    ensures SingleFileBase(filename) == filename <==> AllAllowed(filename)
  {
    if AllAllowed(filename) {
      var b := SingleFileBase(filename);
      assert forall i :: 0 <= i < |b| ==> b[i] == filename[i];
    }
  }

  /** "My Video.MP4" has base "my_video.mp4". The filename comes in as a
      parameter pinned by the precondition rather than as a literal in the
      call, so the verifier unfolds the functions over it only as far as the
      per-character assertions ask. */
  lemma SingleFileBaseExample(f: string)
    requires f == "My Video.MP4"
    ensures SingleFileBase(f) == "my_video.mp4"
  {
    var b := SingleFileBase(f);
    assert b[0] == 'm';
    assert b[1] == 'y';
    assert b[2] == '_';
    assert b[3] == 'v';
    assert b[4] == 'i';
    assert b[5] == 'd';
    assert b[6] == 'e';
    assert b[7] == 'o';
    assert b[8] == '.';
    assert b[9] == 'm';
    assert b[10] == 'p';
    assert b[11] == '4';
  }

  const MultiFilePrefix: string := "discord-upload-"

  /** The base of a several-file upload: "discord-upload-" and the user's
      name with spaces turned into '_', all lower-cased. */
  function MultiFileBase(userName: string): (base: string)
    ensures |base| == |MultiFilePrefix| + |userName|
    ensures base[..|MultiFilePrefix|] == MultiFilePrefix
    ensures forall i :: 0 <= i < |userName| ==>
      base[|MultiFilePrefix| + i] == (if userName[i] == ' ' then '_' else LowerChar(userName[i]))
    ensures ' ' !in base
    ensures forall i :: 0 <= i < |base| ==> !IsUpper(base[i])
  {
    var raw := MultiFilePrefix + Replace(userName, ' ', '_');
    var base := Lower(raw);
    assert forall i :: 0 <= i < |MultiFilePrefix| ==> base[i] == MultiFilePrefix[i];
    assert forall i :: 0 <= i < |userName| ==> raw[|MultiFilePrefix| + i] == Replace(userName, ' ', '_')[i];
    base
  }

  /** The base is the prefix followed by any name that matches the user's
      name with spaces as '_' and capitals lowered, character by character. */
  lemma MultiFileBaseOf(userName: string, name: string)
    requires |name| == |userName|
    requires forall i :: 0 <= i < |userName| ==>
      name[i] == (if userName[i] == ' ' then '_' else LowerChar(userName[i]))
    ensures MultiFileBase(userName) == MultiFilePrefix + name
  {
    var b := MultiFileBase(userName);
    assert b == b[..|MultiFilePrefix|] + b[|MultiFilePrefix|..];
    assert b[|MultiFilePrefix|..] == name;
  }

  /** The user "Jane Doe" gives the base "discord-upload-jane_doe". As above,
      the name is a parameter pinned by the precondition. */
  lemma MultiFileBaseExample(userName: string)
    requires userName == "Jane Doe"
    ensures MultiFileBase(userName) == "discord-upload-jane_doe"
  {
    MultiFileBaseOf(userName, "jane_doe");
  }

  /** `generate_unique_id`: the base, a dash, and the moment as
      `YYYYMMDDHHMMSS`. */
  function GenerateUniqueId(base: string, now: DateTime): (id: string)
    requires now.Valid()
    ensures |id| == |base| + 1 + TimestampLength
    ensures id[..|base|] == base && id[|base|] == '-'
    ensures AllDigits(id[|base| + 1..])
  {
    base + "-" + Timestamp(now)
  }

  /** Whether `id` ends in a dash and fourteen digits, as every generated identifier does. */
  predicate HasTimestampSuffix(id: string) {
    |id| >= 1 + TimestampLength
    && id[|id| - TimestampLength - 1] == '-'
    && AllDigits(id[|id| - TimestampLength..])
  }

  /** Takes an identifier apart into its base and its moment. */
  function SplitUniqueId(id: string): (string, DateTime)
    requires HasTimestampSuffix(id)
  {
    (id[..|id| - TimestampLength - 1], ParseTimestamp(id[|id| - TimestampLength..]))
  }

  /** An identifier determines the base and the second it was made from. */
  lemma SplitUniqueIdInverts(base: string, now: DateTime)
    requires now.Valid()
    ensures HasTimestampSuffix(GenerateUniqueId(base, now))
    ensures SplitUniqueId(GenerateUniqueId(base, now)) == (base, now)
  {
    var id := GenerateUniqueId(base, now);
    assert id[|id| - TimestampLength..] == Timestamp(now);
    ParseTimestampInverts(now);
  }

  /** Two uploads get the same identifier exactly when their bases agree and
      they happen within the same second: the only collision there is. */
  lemma UniqueIdCollision(base1: string, now1: DateTime, base2: string, now2: DateTime)
    requires now1.Valid() && now2.Valid()
    ensures GenerateUniqueId(base1, now1) == GenerateUniqueId(base2, now2) <==> base1 == base2 && now1 == now2
  {
    SplitUniqueIdInverts(base1, now1);
    SplitUniqueIdInverts(base2, now2);
  }
}

=== FILE: metadata.dfy ===
/** The descriptive metadata sent with an upload: a fixed scanner and
    collection, and a title and description that name the one file, or the
    uploader and the list of files. */
module Metadata {
  import opened Text
  import opened Staging

  /** The metadata keys the command fills in. */
  datatype Field = ScannerKey | CollectionKey | TitleKey | DescriptionKey
  {
    /** The key as the archive receives it. */
    function Name(): string {
      match this
      case ScannerKey => "scanner"
      case CollectionKey => "collection"
      case TitleKey => "title"
      case DescriptionKey => "description"
    }
  }

  /** Distinct fields go out under distinct names. */
  lemma FieldNamesDistinct(f: Field, g: Field)
    ensures f.Name() == g.Name() <==> f == g
  {
  }

  const Scanner: string := "Discord Bot Upload"
  const Collection: string := "opensource_media"

  /** How every description opens, before the user's name. */
  const DescriptionLead: string := "Uploaded via Discord bot by "

  /** The description of a one-file upload: the lead, the user's name, ": ",
      and the filename; both names can be cut back out of it. */
  function SingleDescription(userName: string, filename: string): (d: string)
    ensures StartsWith(d, DescriptionLead)
    ensures |d| == |DescriptionLead| + |userName| + 2 + |filename|
    ensures d[|DescriptionLead|..|DescriptionLead| + |userName|] == userName
    ensures d[|DescriptionLead| + |userName|..|d| - |filename|] == ": "
    ensures d[|d| - |filename|..] == filename
  {
    var d := DescriptionLead + userName + ": " + filename;
    assert d[..|DescriptionLead|] == DescriptionLead;
    assert d[|DescriptionLead|..|DescriptionLead| + |userName|] == userName;
    assert d[|DescriptionLead| + |userName|..|d| - |filename|] == ": ";
    assert d[|d| - |filename|..] == filename;
    d
  }

  const MultiTitleLead: string := "Files uploaded by "

  /** The title of a several-file upload: a fixed lead, then exactly the user's name. */
  function MultiTitle(userName: string): (t: string)
    ensures StartsWith(t, MultiTitleLead)
    ensures t[|MultiTitleLead|..] == userName
  {
    var t := MultiTitleLead + userName;
    assert t[..|MultiTitleLead|] == MultiTitleLead;
    t
  }

  /** The first line of a several-file description. */
  function MultiHeadline(userName: string): string {
    DescriptionLead + userName + "."
  }

  const FileListHeading: string := "Uploaded files:"

  function Basenames(paths: seq<string>): (names: seq<string>)
    ensures |names| == |paths|
    ensures forall i :: 0 <= i < |paths| ==> names[i] == Basename(paths[i])
  {
    seq(|paths|, i requires 0 <= i < |paths| => Basename(paths[i]))
  }

  function Filenames(atts: seq<Attachment>): (names: seq<string>)
    ensures |names| == |atts|
    ensures forall i :: 0 <= i < |atts| ==> names[i] == atts[i].filename
  {
    seq(|atts|, i requires 0 <= i < |atts| => atts[i].filename)
  }

  /** The description of a several-file upload: a line naming the user, an
      empty line, a heading, then one line per staged file's base name; the
      base name of every staged path occurs in it. */
  function MultiDescription(userName: string, paths: seq<string>): (d: string)
    ensures StartsWith(d, MultiHeadline(userName))
    ensures forall i :: 0 <= i < |paths| ==> Contains(d, Basename(paths[i]))
  {
    var head := MultiHeadline(userName) + "\n\n" + FileListHeading + "\n";
    var list := Join(Basenames(paths), '\n');
    ContainsAfterAll(head, list, Basenames(paths));
    assert (head + list)[..|MultiHeadline(userName)|] == MultiHeadline(userName);
    head + list
  }

  /** The metadata of an upload whose staged paths are `paths`, staged from
      `atts` in the same order. */
  function BuildMetadata(userName: string, atts: seq<Attachment>, paths: seq<string>): (m: map<Field, string>)
    requires |atts| == |paths|
    ensures m.Keys == {ScannerKey, CollectionKey, TitleKey, DescriptionKey}
    ensures m[ScannerKey] == Scanner && m[CollectionKey] == Collection
    ensures |paths| == 1 ==> m[TitleKey] == atts[0].filename
    ensures |paths| == 1 ==> m[DescriptionKey] == SingleDescription(userName, atts[0].filename)
    ensures |paths| != 1 ==> m[TitleKey] == MultiTitle(userName)
    ensures |paths| != 1 ==> m[DescriptionKey] == MultiDescription(userName, paths)
  {
    var title := if |paths| == 1 then atts[0].filename else MultiTitle(userName);
    var description :=
      if |paths| == 1 then SingleDescription(userName, atts[0].filename)
      else MultiDescription(userName, paths);
    map[ScannerKey := Scanner, CollectionKey := Collection]
      + map[TitleKey := title, DescriptionKey := description]
  }

  const KeyNames: set<string> := {"scanner", "collection", "title", "description"}

  /** The four fields, taken by name, are exactly the four key names. */
  lemma {:induction false} FieldSetNames(keys: set<Field>)
    requires keys == {ScannerKey, CollectionKey, TitleKey, DescriptionKey}
    ensures (set f | f in keys :: f.Name()) == KeyNames
  {
    var names := set f | f in keys :: f.Name();
    forall n | n in names
      ensures n in KeyNames
    {
      var f :| f in keys && f.Name() == n;
    }
    assert ScannerKey in keys && ScannerKey.Name() == "scanner";
    assert CollectionKey in keys && CollectionKey.Name() == "collection";
    assert TitleKey in keys && TitleKey.Name() == "title";
    assert DescriptionKey in keys && DescriptionKey.Name() == "description";
    assert KeyNames <= names;
  }

  /** Under their names, the metadata's keys are exactly "scanner",
      "collection", "title" and "description". */
  lemma MetadataKeyNames(userName: string, atts: seq<Attachment>, paths: seq<string>)
    requires |atts| == |paths|
    ensures (set f | f in BuildMetadata(userName, atts, paths).Keys :: f.Name()) == KeyNames
  {
    FieldSetNames(BuildMetadata(userName, atts, paths).Keys);
  }

  /** A one-file description names both the uploader and the file. */
  lemma SingleDescriptionNames(userName: string, filename: string)
    ensures Contains(SingleDescription(userName, filename), userName)
    ensures Contains(SingleDescription(userName, filename), filename)
  {
    var d := SingleDescription(userName, filename);
    assert d == DescriptionLead + userName + (": " + filename);
    ContainsMiddle(DescriptionLead, userName, ": " + filename);
    assert d == DescriptionLead + userName + ": " + filename + [];
    ContainsMiddle(DescriptionLead + userName + ": ", filename, []);
  }

  /** The base name of a stage path is the filename it was staged from, for
      a filename that holds no '/'. */
  lemma {:induction false} BasenameOfStagePath(filename: string)
    requires '/' !in filename
    ensures Basename(StagePath(filename)) == filename
  {
    var p := StagePath(filename);
    var b := Basename(p);
    assert p[1] == '/';
    assert b == p[2..] == filename;
  }

  /** Staged filenames come back out of their stage paths, in order. */
  lemma BasenamesOfStagePaths(atts: seq<Attachment>)
    requires forall i :: 0 <= i < |atts| ==> '/' !in atts[i].filename
    ensures Basenames(StagePaths(atts)) == Filenames(atts)
  {
    forall i | 0 <= i < |atts|
      ensures Basenames(StagePaths(atts))[i] == Filenames(atts)[i]
    {
      BasenameOfStagePath(atts[i].filename);
    }
  }

  lemma MultiDescriptionShape(userName: string, paths: seq<string>)
    requires '\n' !in userName
    ensures '\n' !in MultiHeadline(userName) && '\n' !in FileListHeading
    ensures MultiDescription(userName, paths)
         == MultiHeadline(userName) + ['\n'] + ([] + ['\n'] + (FileListHeading + ['\n'] + Join(Basenames(paths), '\n')))
  {
  }

  /** Read line by line, a several-file description is the headline, an
      empty line, the heading, and then every filename in upload order. */
  lemma MultiDescriptionLines(userName: string, atts: seq<Attachment>)
    requires |atts| >= 1
    requires '\n' !in userName
    requires forall i :: 0 <= i < |atts| ==> '/' !in atts[i].filename && '\n' !in atts[i].filename
    ensures Split(MultiDescription(userName, StagePaths(atts)), '\n')
         == [MultiHeadline(userName), "", FileListHeading] + Filenames(atts)
  {
    var names := Filenames(atts);
    BasenamesOfStagePaths(atts);
    SplitJoin(names, '\n');
    MultiDescriptionShape(userName, StagePaths(atts));
    SplitThreeLines(MultiHeadline(userName), [], FileListHeading, Join(names, '\n'), '\n');
  }
}

=== FILE: staging.dfy ===
/** The attachments of one `/upload` invocation: gathering the filled slots,
    the 100 MiB size gate, staging each attachment in the working directory,
    and removing the staged copies afterwards. The working directory is the
    set of paths present in it; the bytes written are not modelled. */
module Staging {

  datatype Option<T> = None | Some(value: T)

  /** An attachment as the chat platform describes it. */
  datatype Attachment = Attachment(filename: string, size: nat)

  /** The command declares ten attachment parameters, `file1` … `file10`. */
  const SlotCount: nat := 10

  /** 100 MiB; an attachment of exactly this size is still accepted. */
  const MaxAttachmentSize: nat := 100 * 1024 * 1024

  function Elems<T>(s: seq<T>): set<T> {
    set x | x in s
  }

  /** The filled slots, in slot order. */
  function Gather(slots: seq<Option<Attachment>>): (atts: seq<Attachment>)
    ensures |atts| <= |slots|
    ensures forall a :: a in atts <==> Some(a) in slots
  {
    if slots == [] then []
    else (if slots[0].Some? then [slots[0].value] else []) + Gather(slots[1..])
  }

  /** Gathering respects concatenation, so the order of the slots is kept. */
  lemma {:induction false} GatherAppend(a: seq<Option<Attachment>>, b: seq<Option<Attachment>>)
    ensures Gather(a + b) == Gather(a) + Gather(b)
  {
    if a == [] {
      assert a + b == b;
    } else {
      assert (a + b)[1..] == a[1..] + b;
      GatherAppend(a[1..], b);
    }
  }

  /** The number gathered is the number of filled slots: the slots less the empty ones. */
  lemma {:induction false} GatherCount(slots: seq<Option<Attachment>>)
    ensures |Gather(slots)| + multiset(slots)[None] == |slots|
  {
    if slots != [] {
      GatherCount(slots[1..]);
      assert slots == [slots[0]] + slots[1..];
      assert multiset(slots) == multiset{slots[0]} + multiset(slots[1..]);
    }
  }

  /** Nothing is gathered exactly when every slot is empty. */
  lemma {:induction false} GatherEmpty(slots: seq<Option<Attachment>>)
    ensures Gather(slots) == [] <==> forall i :: 0 <= i < |slots| ==> slots[i].None?
  {
    if slots != [] {
      GatherEmpty(slots[1..]);
      assert forall i :: 1 <= i < |slots| ==> slots[i] == slots[1..][i - 1];
    }
  }

  /** Every gathered attachment is within the limit exactly when every filled slot is. */
  lemma GatherWithinLimit(slots: seq<Option<Attachment>>)
    ensures (forall i :: 0 <= i < |slots| && slots[i].Some? ==> WithinLimit(slots[i].value))
        <==> (forall j :: 0 <= j < |Gather(slots)| ==> WithinLimit(Gather(slots)[j]))
  {
    var atts := Gather(slots);
    if forall j :: 0 <= j < |atts| ==> WithinLimit(atts[j]) {
      forall i | 0 <= i < |slots| && slots[i].Some?
        ensures WithinLimit(slots[i].value)
      {
        assert Some(slots[i].value) in slots;
      }
    } else {
      var j :| 0 <= j < |atts| && !WithinLimit(atts[j]);
      assert Some(atts[j]) in slots;
      var i :| 0 <= i < |slots| && slots[i] == Some(atts[j]);
      assert slots[i].Some? && !WithinLimit(slots[i].value);
    }
  }

  /** With the first slot filled, between one and all slots are gathered,
      the first slot's attachment leading. */
  lemma GatherFirstRequired(slots: seq<Option<Attachment>>)
    requires |slots| >= 1 && slots[0].Some?
    ensures 1 <= |Gather(slots)| <= |slots|
    ensures Gather(slots)[0] == slots[0].value
  {
  }

  /** Where an attachment is staged: `./` followed by its filename, so the
      filename can be read back from the path. */
  function StagePath(filename: string): (p: string)
    ensures |p| == |filename| + 2
    ensures p[0] == '.' && p[1] == '/'
    ensures p[2..] == filename
  {
    "./" + filename
  }

  /** Different filenames are staged under different paths. */
  lemma StagePathInjective(f: string, g: string)
    ensures StagePath(f) == StagePath(g) <==> f == g
  {
    if StagePath(f) == StagePath(g) {
      assert f == StagePath(f)[2..];
    }
  }

  function StagePaths(atts: seq<Attachment>): (paths: seq<string>)
    ensures |paths| == |atts|
    ensures forall i :: 0 <= i < |atts| ==> paths[i] == StagePath(atts[i].filename)
  {
    seq(|atts|, i requires 0 <= i < |atts| => StagePath(atts[i].filename))
  }

  /** The size gate: an attachment passes unless it is over 104857600 bytes. */
  predicate WithinLimit(a: Attachment): (ok: bool)
    ensures ok <==> a.size <= 104857600
    ensures !ok <==> a.size >= 104857601
  {
    a.size <= MaxAttachmentSize
  }

  /** `k` is the position of the first attachment over the limit. */
  predicate IsFirstOversized(atts: seq<Attachment>, k: int) {
    && 0 <= k < |atts|
    && !WithinLimit(atts[k])
    && forall j :: 0 <= j < k ==> WithinLimit(atts[j])
  }

  /** What the staging loop leaves behind: the staged paths in order, or the
      name of the attachment that stopped it; either way the directory. */
  datatype StageResult =
    | Staged(paths: seq<string>, fs: set<string>)
    | TooLarge(filename: string, fs: set<string>)

  /** The staging loop: attachments are checked in order; one over the limit
      stops the loop at once, otherwise it is saved under its stage path. */
  function Stage(atts: seq<Attachment>, fs: set<string>): (r: StageResult)
    ensures fs <= r.fs
    ensures r.Staged? <==> forall i :: 0 <= i < |atts| ==> WithinLimit(atts[i])
  {
    if atts == [] then Staged([], fs)
    else if !WithinLimit(atts[0]) then TooLarge(atts[0].filename, fs)
    else
      var path := StagePath(atts[0].filename);
      match Stage(atts[1..], fs + {path})
      case Staged(paths, fs') => Staged([path] + paths, fs')
      case TooLarge(name, fs') => TooLarge(name, fs')
  }

  /** When every attachment is within the limit, each one is staged, in
      order, and the directory gains exactly their paths. */
  lemma {:induction false} StageAcceptsAll(atts: seq<Attachment>, fs: set<string>)
    requires forall i :: 0 <= i < |atts| ==> WithinLimit(atts[i])
    ensures Stage(atts, fs) == Staged(StagePaths(atts), fs + Elems(StagePaths(atts)))
  {
    if atts != [] {
      var path := StagePath(atts[0].filename);
      StageAcceptsAll(atts[1..], fs + {path});
      assert StagePaths(atts) == [path] + StagePaths(atts[1..]);
      assert Elems(StagePaths(atts)) == {path} + Elems(StagePaths(atts[1..]));
    }
  }

  /** The first attachment over the limit stops the loop and is the one
      reported; the attachments before it stay staged in the directory. */
  lemma {:induction false} StageAbortsAtFirstOversized(atts: seq<Attachment>, fs: set<string>, k: int)
    requires IsFirstOversized(atts, k)
    ensures Stage(atts, fs) == TooLarge(atts[k].filename, fs + Elems(StagePaths(atts[..k])))
  {
    if k == 0 {
      assert Elems(StagePaths(atts[..0])) == {};
    } else {
      var path := StagePath(atts[0].filename);
      assert IsFirstOversized(atts[1..], k - 1);
      StageAbortsAtFirstOversized(atts[1..], fs + {path}, k - 1);
      assert atts[1..][..k - 1] == atts[..k][1..];
      assert StagePaths(atts[..k]) == [path] + StagePaths(atts[1..][..k - 1]);
      assert Elems(StagePaths(atts[..k])) == {path} + Elems(StagePaths(atts[1..][..k - 1]));
    }
  }

  /** Some attachment is the first one over the limit whenever not all fit. */
  lemma FirstOversizedExists(atts: seq<Attachment>) returns (k: int)
    requires exists i :: 0 <= i < |atts| && !WithinLimit(atts[i])
    ensures IsFirstOversized(atts, k)
  {
    k := 0;
    while WithinLimit(atts[k])
      invariant 0 <= k < |atts|
      invariant forall j :: 0 <= j < k ==> WithinLimit(atts[j])
      decreases |atts| - k
    {
      k := k + 1;
    }
  }

  /** The size gate at its boundary: exactly 100 MiB passes, one byte more does not. */
  lemma SizeGateBoundary(filename: string, fs: set<string>)
    ensures Stage([Attachment(filename, MaxAttachmentSize)], fs).Staged?
    ensures Stage([Attachment(filename, MaxAttachmentSize + 1)], fs) == TooLarge(filename, fs)
  {
  }

  /** The cleanup loop: each staged path that still exists is removed. */
  function Cleanup(paths: seq<string>, fs: set<string>): (fs': set<string>)
    ensures fs' == fs - Elems(paths)
  {
    if paths == [] then fs
    else
      var path := paths[0];
      assert Elems(paths) == {path} + Elems(paths[1..]);
      Cleanup(paths[1..], if path in fs then fs - {path} else fs)
  }
}

=== FILE: text.dfy ===
/** Character and string operations the upload command relies on: ASCII
    lower-casing, single-character replacement, joining lines with a
    separator (and splitting them again), and the last component of a path. */
module Text {

  predicate IsUpper(c: char) {
    'A' <= c <= 'Z'
  }

  predicate IsLower(c: char) {
    'a' <= c <= 'z'
  }

  /** Lower-cases an ASCII capital letter; every other character is kept. */
  function LowerChar(c: char): (d: char)
    ensures !IsUpper(d)
    ensures IsUpper(c) ==> IsLower(d) && d as int - c as int == 'a' as int - 'A' as int
    ensures !IsUpper(c) ==> d == c
  {
    if IsUpper(c) then (c as int - 'A' as int + 'a' as int) as char else c
  }

  /** Character-by-character lower-casing (the ASCII part of `str.lower`). */
  function Lower(s: string): (r: string)
    ensures |r| == |s|
    ensures forall i :: 0 <= i < |s| ==> r[i] == LowerChar(s[i])
  {
    if s == [] then [] else [LowerChar(s[0])] + Lower(s[1..])
  }

  /** Every occurrence of `from` becomes `to` (`str.replace` with one-character arguments). */
  function Replace(s: string, from: char, to: char): (r: string)
    ensures |r| == |s|
    ensures forall i :: 0 <= i < |s| ==> r[i] == (if s[i] == from then to else s[i])
  {
    if s == [] then [] else [if s[0] == from then to else s[0]] + Replace(s[1..], from, to)
  }

  /** The parts with one `sep` between neighbours (`sep.join(parts)`);
      every part occurs in the result. */
  function Join(parts: seq<string>, sep: char): (r: string)
    ensures forall i :: 0 <= i < |parts| ==> Contains(r, parts[i])
  {
    if |parts| == 0 then []
    else if |parts| == 1 then
      ContainsMiddle([], parts[0], []);
      assert [] + parts[0] + [] == parts[0];
      parts[0]
    else
      var rest := Join(parts[1..], sep);
      ContainsMiddle([], parts[0], [sep] + rest);
      assert [] + parts[0] + ([sep] + rest) == parts[0] + [sep] + rest;
      ContainsAfterAll(parts[0] + [sep], rest, parts[1..]);
      parts[0] + [sep] + rest
  }

  /** The pieces of `s` between occurrences of `sep` (`s.split(sep)`): the
      empty string splits into one empty piece. */
  function Split(s: string, sep: char): (parts: seq<string>)
    ensures |parts| >= 1
  {
    if s == [] then [[]]
    else
      var rest := Split(s[1..], sep);
      if s[0] == sep then [[]] + rest else [[s[0]] + rest[0]] + rest[1..]
  }

  /** A separator-free prefix is glued onto the first piece of what follows. */
  lemma {:induction false} SplitNoSeparator(a: string, b: string, sep: char)
    requires sep !in a
    ensures Split(a + b, sep) == [a + Split(b, sep)[0]] + Split(b, sep)[1..]
  {
    if a == [] {
      assert a + b == b;
      assert a + Split(b, sep)[0] == Split(b, sep)[0];
      assert Split(b, sep) == [Split(b, sep)[0]] + Split(b, sep)[1..];
    } else {
      SplitNoSeparator(a[1..], b, sep);
      assert (a + b)[1..] == a[1..] + b;
      assert [a[0]] + (a[1..] + Split(b, sep)[0]) == a + Split(b, sep)[0];
    }
  }

  /** Splitting after a separator-free line yields that line first. */
  lemma {:induction false} SplitAtSeparator(a: string, b: string, sep: char)
    requires sep !in a
    ensures Split(a + [sep] + b, sep) == [a] + Split(b, sep)
  {
    assert a + [sep] + b == a + ([sep] + b);
    SplitNoSeparator(a, [sep] + b, sep);
    assert ([sep] + b)[1..] == b;
    assert a + [] == a;
  }

  /** Three separator-free lines in front of a text split off as its first three pieces. */
  lemma SplitThreeLines(a: string, b: string, c: string, rest: string, sep: char)
    requires sep !in a && sep !in b && sep !in c
    ensures Split(a + [sep] + (b + [sep] + (c + [sep] + rest)), sep) == [a, b, c] + Split(rest, sep)
  {
    var s3 := c + [sep] + rest;
    var s2 := b + [sep] + s3;
    SplitAtSeparator(c, rest, sep);
    SplitAtSeparator(b, s3, sep);
    SplitAtSeparator(a, s2, sep);
  }

  /** Splitting a join gives the parts back, as long as no part holds the separator. */
  lemma {:induction false} SplitJoin(parts: seq<string>, sep: char)
    requires |parts| >= 1
    requires forall i :: 0 <= i < |parts| ==> sep !in parts[i]
    ensures Split(Join(parts, sep), sep) == parts
  {
    if |parts| == 1 {
      SplitNoSeparator(parts[0], [], sep);
      assert parts[0] + [] == parts[0];
    } else {
      SplitJoin(parts[1..], sep);
      SplitAtSeparator(parts[0], Join(parts[1..], sep), sep);
      assert parts == [parts[0]] + parts[1..];
    }
  }

  /** The last component of a slash-separated path: everything after the
      final '/', or the whole path when it has none (POSIX `os.path.basename`,
      which splits at '/' only). */
  function Basename(path: string): (b: string)
    ensures |b| <= |path| && b == path[|path| - |b|..]
    ensures '/' !in b
    ensures |b| < |path| ==> path[|path| - |b| - 1] == '/'
  {
    if path == [] then []
    else if path[|path| - 1] == '/' then []
    else Basename(path[..|path| - 1]) + [path[|path| - 1]]
  }

  predicate StartsWith(s: string, t: string) {
    |t| <= |s| && s[..|t|] == t
  }

  /** Whether `t` occurs somewhere inside `s`. */
  predicate Contains(s: string, t: string) {
    exists i :: 0 <= i <= |s| && StartsWith(s[i..], t)
  }

  /** What occurs in `s` still occurs once `a` is put in front of it. */
  lemma ContainsAfter(a: string, s: string, t: string)
    requires Contains(s, t)
    ensures Contains(a + s, t)
  {
    var i :| 0 <= i <= |s| && StartsWith(s[i..], t);
    assert (a + s)[|a| + i..] == s[i..];
  }

  lemma ContainsAfterAll(a: string, s: string, ts: seq<string>)
    requires forall i :: 0 <= i < |ts| ==> Contains(s, ts[i])
    ensures forall i :: 0 <= i < |ts| ==> Contains(a + s, ts[i])
  {
    forall i | 0 <= i < |ts|
      ensures Contains(a + s, ts[i])
    {
      ContainsAfter(a, s, ts[i]);
    }
  }

  lemma ContainsMiddle(a: string, t: string, b: string)
    ensures Contains(a + t + b, t)
  {
    var s := a + t + b;
    assert s[|a|..][..|t|] == t;
    assert StartsWith(s[|a|..], t);
  }
}

=== FILE: upload_command.dfy ===
/** The `/upload` slash command as one pure function: from the ten
    attachment slots, the invoking user's name, the current moment, the
    archive's verdict on the upload and the working directory, to the
    outcome, the follow-up messages sent to the user, the upload request
    handed to the archive (if any) and the working directory afterwards. */
module UploadCommand {
  import opened Text
  import opened Clock
  import opened ItemId
  import opened Staging
  import opened Metadata
  import Digits

  const DetailsUrlPrefix: string := "https://archive.org/details/"

  /** Where the archive shows an item: the details prefix, then exactly the identifier. */
  function DetailsUrl(itemId: string): (url: string)
    ensures StartsWith(url, DetailsUrlPrefix)
    ensures url[|DetailsUrlPrefix|..] == itemId
  {
    var url := DetailsUrlPrefix + itemId;
    assert url[..|DetailsUrlPrefix|] == DetailsUrlPrefix;
    url
  }

  const NoFilesMessage: string := "No files attached. Please provide at least one file."

  /** The abort message names the attachment that is too large. */
  function TooLargeMessage(filename: string): (msg: string)
    ensures Contains(msg, filename)
  {
    ContainsMiddle("File `", filename, "` exceeds the 100MB limit.");
    "File `" + filename + "` exceeds the 100MB limit."
  }

  const ProgressLead: string := "Uploading "
  const ProgressTail: string := " file(s) to Archive.org..."

  /** The progress message announces the count: the digits between its lead
      and its tail read back as the number of files. */
  function ProgressMessage(count: nat): (msg: string)
    ensures StartsWith(msg, ProgressLead)
    ensures |ProgressLead| <= |msg| - |ProgressTail|
    ensures msg[|msg| - |ProgressTail|..] == ProgressTail
    ensures var digits := msg[|ProgressLead|..|msg| - |ProgressTail|];
            Digits.AllDigits(digits) && Digits.Value(digits) == count
    ensures var digits := msg[|ProgressLead|..|msg| - |ProgressTail|];
            1 <= |digits| && (digits[0] == '0' <==> count == 0)
  {
    var digits := Digits.Decimal(count);
    Digits.ValueDecimal(count);
    var msg := ProgressLead + digits + ProgressTail;
    assert msg[|ProgressLead|..|msg| - |ProgressTail|] == digits;
    assert msg[|msg| - |ProgressTail|..] == ProgressTail;
    msg
  }

  const SingularLead: string := "File successfully uploaded to Archive.org! [View it here]("
  const PluralLead: string := "Files successfully uploaded to Archive.org! [View them here]("

  /** The success message: the lead for one file or for several, then the
      item's details URL, which can be cut back out of it, then ')'. */
  function SuccessMessage(count: nat, itemId: string): (msg: string)
    ensures var lead := if count == 1 then SingularLead else PluralLead;
            && StartsWith(msg, lead)
            && |msg| == |lead| + |DetailsUrl(itemId)| + 1
            && msg[|lead|..|msg| - 1] == DetailsUrl(itemId)
            && msg[|msg| - 1] == ')'
  {
    var lead := if count == 1 then SingularLead else PluralLead;
    var msg := lead + DetailsUrl(itemId) + ")";
    assert msg[..|lead|] == lead;
    assert msg[|lead|..|msg| - 1] == DetailsUrl(itemId);
    msg
  }

  const FailurePrefix: string := "An error occurred during upload: "

  /** The failure message: a fixed prefix, then exactly the error text. */
  function FailureMessage(reason: string): (msg: string)
    ensures StartsWith(msg, FailurePrefix)
    ensures msg[|FailurePrefix|..] == reason
  {
    var msg := FailurePrefix + reason;
    assert msg[..|FailurePrefix|] == FailurePrefix;
    msg
  }

  /** The success message links the item's page and is worded for one file or for several. */
  lemma SuccessMessageShape(count: nat, itemId: string)
    ensures Contains(SuccessMessage(count, itemId), DetailsUrl(itemId))
    ensures count == 1 ==> StartsWith(SuccessMessage(count, itemId), SingularLead)
    ensures count != 1 ==> StartsWith(SuccessMessage(count, itemId), PluralLead)
  {
    var lead := if count == 1 then SingularLead else PluralLead;
    ContainsMiddle(lead, DetailsUrl(itemId), ")");
    assert (lead + DetailsUrl(itemId) + ")")[..|lead|] == lead;
  }

  /** The failure message carries the error text. */
  lemma FailureMessageShape(reason: string)
    ensures Contains(FailureMessage(reason), reason)
  {
    ContainsMiddle(FailurePrefix, reason, []);
    assert FailurePrefix + reason + [] == FailureMessage(reason);
  }

  /** How an invocation ends; the archive's exception becomes `UploadFailed`. */
  datatype Outcome =
    | NoAttachments
    | AttachmentTooLarge(filename: string)
    | Uploaded(itemId: string, url: string)
    | UploadFailed(itemId: string, reason: string)

  /** The call made to the archive: identifier, staged paths, metadata. */
  datatype UploadRequest = UploadRequest(identifier: string, files: seq<string>, metadata: map<Field, string>)

  /** Everything an invocation produces. */
  datatype Response = Response(
    outcome: Outcome,
    messages: seq<string>,
    request: Option<UploadRequest>,
    fs: set<string>)

  /** The identifier base: the sanitised filename for one file, the
      uploader-derived base for several. */
  function BaseItemId(userName: string, atts: seq<Attachment>): (base: string)
    ensures |atts| == 1 ==> |base| == |atts[0].filename| && AllAllowed(base)
    ensures |atts| != 1 ==> StartsWith(base, MultiFilePrefix) && |base| == |MultiFilePrefix| + |userName|
    ensures |atts| != 1 ==> ' ' !in base && forall i :: 0 <= i < |base| ==> !IsUpper(base[i])
    ensures |atts| == 1 ==> forall i :: 0 <= i < |base| ==>
      base[i] == (if Allowed(LowerChar(atts[0].filename[i])) then LowerChar(atts[0].filename[i]) else '_')
    ensures |atts| != 1 ==> forall i :: 0 <= i < |userName| ==>
      base[|MultiFilePrefix| + i] == (if userName[i] == ' ' then '_' else LowerChar(userName[i]))
  {
    if |atts| == 1 then SingleFileBase(atts[0].filename) else MultiFileBase(userName)
  }

  /** The part of an invocation after every attachment was staged: the
      upload under a fresh identifier, the two follow-up messages, and the
      removal of the staged copies from the working directory `staged`. */
  function Deliver(
    userName: string,
    atts: seq<Attachment>,
    now: DateTime,
    uploadSucceeds: bool,
    errText: string,
    staged: set<string>
  ): (r: Response)
    requires now.Valid()
    ensures r.request.Some? && r.request.value.files == StagePaths(atts)
    ensures r.outcome.Uploaded? <==> uploadSucceeds
    ensures r.outcome.UploadFailed? <==> !uploadSucceeds
    ensures r.outcome.UploadFailed? ==> r.outcome.reason == errText
    ensures r.fs == staged - Elems(StagePaths(atts))
    ensures |r.messages| == 2 && r.messages[0] == ProgressMessage(|atts|)
  {
    var paths := StagePaths(atts);
    var count := |paths|;
    var itemId := GenerateUniqueId(BaseItemId(userName, atts), now);
    var request := UploadRequest(itemId, paths, BuildMetadata(userName, atts, paths));
    var outcome := if uploadSucceeds then Uploaded(itemId, DetailsUrl(itemId)) else UploadFailed(itemId, errText);
    var last := if uploadSucceeds then SuccessMessage(count, itemId) else FailureMessage(errText);
    Response(outcome, [ProgressMessage(count), last], Some(request), Cleanup(paths, staged))
  }

  /** One invocation of the command. `uploadSucceeds` and `errText` stand for
      the archive call's result and the text of the exception it raises. */
  function Handle(
    slots: seq<Option<Attachment>>,
    userName: string,
    now: DateTime,
    uploadSucceeds: bool,
    errText: string,
    fs: set<string>
  ): (r: Response)
    requires |slots| == SlotCount
    requires now.Valid()
    ensures r.outcome.NoAttachments? <==> forall i :: 0 <= i < |slots| ==> slots[i].None?
    ensures r.request.Some? <==> r.outcome.Uploaded? || r.outcome.UploadFailed?
    ensures r.request.Some? <==>
      !r.outcome.NoAttachments? && forall i :: 0 <= i < |slots| && slots[i].Some? ==> WithinLimit(slots[i].value)
    ensures r.request.Some? ==> (r.outcome.Uploaded? <==> uploadSucceeds)
    ensures r.outcome.UploadFailed? ==> r.outcome.reason == errText
    ensures r.request.Some? ==> forall p :: p in r.request.value.files ==> p !in r.fs
    ensures r.request.Some? ==> forall p :: p !in r.request.value.files ==> (p in r.fs <==> p in fs)
    ensures r.request.None? ==> fs <= r.fs
    ensures |r.messages| == if r.request.Some? then 2 else 1
  {
    var atts := Gather(slots);
    GatherEmpty(slots);
    GatherWithinLimit(slots);
    if atts == [] then
      Response(NoAttachments, [NoFilesMessage], None, fs)
    else
      match Stage(atts, fs)
      case TooLarge(filename, staged) =>
        Response(AttachmentTooLarge(filename), [TooLargeMessage(filename)], None, staged)
      case Staged(_, staged) =>
        StageAcceptsAll(atts, fs);
        Deliver(userName, atts, now, uploadSucceeds, errText, staged)
  }

  /** With every slot empty the user is told so, and nothing else happens. */
  lemma HandleWithoutAttachments(
    slots: seq<Option<Attachment>>, userName: string, now: DateTime,
    uploadSucceeds: bool, errText: string, fs: set<string>)
    requires |slots| == SlotCount && now.Valid()
    requires forall i :: 0 <= i < |slots| ==> slots[i].None?
    ensures Handle(slots, userName, now, uploadSucceeds, errText, fs)
         == Response(NoAttachments, [NoFilesMessage], None, fs)
  {
    GatherEmpty(slots);
  }

  /** The first attachment over 100 MiB ends the invocation: it is the one
      named to the user, nothing is sent to the archive, and the attachments
      before it remain staged in the working directory. */
  lemma HandleRejectsOversized(
    slots: seq<Option<Attachment>>, userName: string, now: DateTime,
    uploadSucceeds: bool, errText: string, fs: set<string>, k: int)
    requires |slots| == SlotCount && now.Valid()
    requires IsFirstOversized(Gather(slots), k)
    ensures var atts := Gather(slots);
            var r := Handle(slots, userName, now, uploadSucceeds, errText, fs);
            && r.outcome == AttachmentTooLarge(atts[k].filename)
            && r.messages == [TooLargeMessage(atts[k].filename)]
            && Contains(r.messages[0], atts[k].filename)
            && r.request.None?
            && r.fs == fs + Elems(StagePaths(atts[..k]))
  {
    StageAbortsAtFirstOversized(Gather(slots), fs, k);
  }

  /** The abort path does not clean up: when the oversized attachment is not
      the first, the first attachment's copy is still on disk afterwards. */
  lemma HandleLeavesEarlierCopies(
    slots: seq<Option<Attachment>>, userName: string, now: DateTime,
    uploadSucceeds: bool, errText: string, fs: set<string>, k: int)
    requires |slots| == SlotCount && now.Valid()
    requires IsFirstOversized(Gather(slots), k) && k > 0
    ensures StagePath(Gather(slots)[0].filename) in Handle(slots, userName, now, uploadSucceeds, errText, fs).fs
  {
    var atts := Gather(slots);
    HandleRejectsOversized(slots, userName, now, uploadSucceeds, errText, fs, k);
    assert StagePaths(atts[..k])[0] == StagePath(atts[0].filename);
  }

  /** When every attachment is within the limit, all of them are staged in
      slot order and handed to the archive under one identifier with their
      metadata; the progress message counts them, and afterwards exactly
      their stage paths are gone from the working directory. */
  lemma HandleUploadsAll(
    slots: seq<Option<Attachment>>, userName: string, now: DateTime,
    uploadSucceeds: bool, errText: string, fs: set<string>)
    requires |slots| == SlotCount && now.Valid()
    requires slots[0].Some?
    requires forall i :: 0 <= i < |slots| && slots[i].Some? ==> WithinLimit(slots[i].value)
    ensures var atts := Gather(slots);
            var r := Handle(slots, userName, now, uploadSucceeds, errText, fs);
            && 1 <= |atts| <= SlotCount
            && atts[0] == slots[0].value
            && r.request == Some(UploadRequest(
                 GenerateUniqueId(BaseItemId(userName, atts), now),
                 StagePaths(atts),
                 BuildMetadata(userName, atts, StagePaths(atts))))
            && r.messages[0] == ProgressMessage(|atts|)
            && r.fs == fs - Elems(StagePaths(atts))
  {
    GatherFirstRequired(slots);
    GatherWithinLimit(slots);
    StageAcceptsAll(Gather(slots), fs);
  }

  /** The identifier of an upload names its base and the second it was made:
      the sanitised filename for one file, the uploader's base for several. */
  lemma HandleItemId(
    slots: seq<Option<Attachment>>, userName: string, now: DateTime,
    uploadSucceeds: bool, errText: string, fs: set<string>)
    requires |slots| == SlotCount && now.Valid()
    requires slots[0].Some?
    requires forall i :: 0 <= i < |slots| && slots[i].Some? ==> WithinLimit(slots[i].value)
    ensures var r := Handle(slots, userName, now, uploadSucceeds, errText, fs);
            && r.request.Some?
            && HasTimestampSuffix(r.request.value.identifier)
            && SplitUniqueId(r.request.value.identifier) == (BaseItemId(userName, Gather(slots)), now)
            && (|Gather(slots)| == 1 ==> BaseItemId(userName, Gather(slots)) == SingleFileBase(slots[0].value.filename))
            && (|Gather(slots)| != 1 ==> BaseItemId(userName, Gather(slots)) == MultiFileBase(userName))
  {
    HandleUploadsAll(slots, userName, now, uploadSucceeds, errText, fs);
    SplitUniqueIdInverts(BaseItemId(userName, Gather(slots)), now);
  }

  /** A successful upload reports the item's page, worded for one file or for several. */
  lemma HandleSuccessReportsUrl(
    slots: seq<Option<Attachment>>, userName: string, now: DateTime,
    errText: string, fs: set<string>)
    requires |slots| == SlotCount && now.Valid()
    requires slots[0].Some?
    requires forall i :: 0 <= i < |slots| && slots[i].Some? ==> WithinLimit(slots[i].value)
    ensures var atts := Gather(slots);
            var itemId := GenerateUniqueId(BaseItemId(userName, atts), now);
            var r := Handle(slots, userName, now, true, errText, fs);
            && r.outcome == Uploaded(itemId, DetailsUrl(itemId))
            && Contains(r.messages[1], DetailsUrl(itemId))
            && (|atts| == 1 ==> StartsWith(r.messages[1], SingularLead))
            && (|atts| != 1 ==> StartsWith(r.messages[1], PluralLead))
  {
    HandleUploadsAll(slots, userName, now, true, errText, fs);
    var atts := Gather(slots);
    SuccessMessageShape(|atts|, GenerateUniqueId(BaseItemId(userName, atts), now));
  }

  /** A failed upload reports the archive's error text and still cleans up. */
  lemma HandleFailureReportsReason(
    slots: seq<Option<Attachment>>, userName: string, now: DateTime,
    errText: string, fs: set<string>)
    requires |slots| == SlotCount && now.Valid()
    requires slots[0].Some?
    requires forall i :: 0 <= i < |slots| && slots[i].Some? ==> WithinLimit(slots[i].value)
    ensures var atts := Gather(slots);
            var r := Handle(slots, userName, now, false, errText, fs);
            && r.outcome == UploadFailed(GenerateUniqueId(BaseItemId(userName, atts), now), errText)
            && Contains(r.messages[1], errText)
            && r.fs == fs - Elems(StagePaths(atts))
  {
    HandleUploadsAll(slots, userName, now, false, errText, fs);
    FailureMessageShape(errText);
  }
}
